=== FILE: README.md ===
# Reminder bot scheduler: a Dafny model

This project models the decision logic of a small Telegram reminder bot
(`index.js`). The bot keeps a weekly schedule, which maps each day name to a
list of `{time, task}` entries, and a list of subscribed chat ids. It has two
parts:

* **The notification tick.** The one-minute timer callback in
  `startScheduler` keeps a set of *notification keys* already sent. Each key
  is the text `time-day-chatId`. On a tick the timer is given today's day
  name and the current `HH:MM` text. Every entry of today's list whose time
  text equals the current time is sent to each subscriber whose key is not
  yet in the set, and that key is then recorded. At `00:00` the set is
  emptied, after that minute's sends. With no subscribers the tick returns
  before doing anything.
* **The schedule commands, without the chat I/O.**
  * `/add`: checks the day, appends the entry and stable-sorts the day by time.
  * `/del`: removes an entry by its 1-based position, with a bounds check.
  * `/list`: numbers the day's entries from 1.
  * `/next_task`: finds the first entry of today that is strictly later than now.

Modules:

* `Wrappers`: `Option` and `Result`.
* `Strings`: three pieces.
  * The ASCII lower-casing of a `\w+` day word.
  * The decimal text of a chat id, with a parser that reads it back.
  * JavaScript's lexicographic string order.
* `Clock`: the `HH:MM` shape, Luxon's `HH:mm` validity, and milliseconds since midnight.
* `Schedules`: entries, day lists, the schedule map and the stable sort by time.
* `Notifier`: the keys, the tick, and a run of many ticks.
* `Commands`: `/add`, `/del`, `/list` and `/next_task`.

Inputs that the program gets from its surroundings are parameters here:

* the schedule (read from a file on every tick that has subscribers and by each schedule command);
* the subscriber list (a JavaScript `Set`, modelled as a sequence in insertion order);
* today's day name and the `HH:MM` text (from Luxon in the configured zone);
* for `/next_task`, the milliseconds since local midnight.

Three consequences of the code as written:

* **One reminder per time, not per task.** The key built at index.js:90
  holds the time, the day and the chat, but not the task text. So when
  several entries of a day share a time, only the first in list order is
  sent (`Notifier.TickDelivery`, `Notifier.FireFirstDueOnly`).
* **A `00:00` entry can repeat.** The key set is cleared at the end of every
  `00:00` tick that has subscribers (index.js:100-102); a tick without
  subscribers returns at index.js:84, before the clear. If a second tick falls
  inside the same minute `00:00`, it sends that minute's entries again
  (`Notifier.TickReArmsAfterMidnight` holds for any `now`, `00:00` included).
  With a 60-second interval that happens only when the clock is adjusted or a
  timer fires early.
* **The current minute is never next.** The comparison at index.js:204 is
  strict, and an entry's time is read as second `:00.000` of its minute. So
  `/next_task` never returns an entry of the current minute, even at second
  `:00.000` (`Commands.CurrentMinuteIsNotNext`).

## Model

| member | source | states |
|---|---|---|
| Notifier.Tick | index.js:84-102 | every message goes to a subscriber and announces an entry of today's list whose time text equals the current time exactly |
| Notifier.TickWithoutSubscribers | index.js:84 | with no subscribers a tick sends nothing and keeps every key, even at `00:00`, since it returns before the clear |
| Notifier.TickDelivery | index.js:86-96 | a chat gets exactly one message, the first entry due now, if it subscribes, an entry is due and its key was absent before the tick; otherwise it gets none; a missing day is an empty list; holds at `00:00` too, the sends being made against the old set |
| Notifier.TickSentSet | index.js:89-96 | away from `00:00` the new key set is the old set plus every subscriber's key for this time and day when some entry is due, and the old set otherwise |
| Notifier.TickMidnightClears | index.js:100-102 | a `00:00` tick with subscribers leaves the key set empty |
| Notifier.TickIdempotent | index.js:89-96 | repeating a non-midnight tick with the same inputs sends nothing and changes nothing |
| Notifier.TickReArmsAfterMidnight | index.js:100-102 | after a `00:00` tick, the next tick with an entry due sends its first due entry to every subscriber again |
| Notifier.AtMostOnceBetweenResets | index.js:79-103 | over any run of ticks with none at `00:00`, each (time, day, chat) is reminded at most once, and never if its key was already recorded |
| Notifier.RunDelivers | index.js:79-103 | over any run of ticks with none at `00:00`, each at an `HH:MM` time of a weekday, a chat subscribed at a tick with an entry due and whose key was not yet recorded is reminded of that day and minute exactly once |
| Notifier.TickStepFor | index.js:86-96 | a tick reminds a chat of a (time, day) once and records that key exactly when the tick is at that time and day, the chat subscribes and an entry is due; otherwise it does neither |
| Notifier.TickAtMostOnce | index.js:89-96 | a tick away from `00:00` keeps every key, reminds a chat of a (time, day) at most once and never if its key was recorded, and records the key whenever it reminds |
| Notifier.Run | index.js:79-103 | successive timer callbacks share one key set, and over ticks none of which is at `00:00` that set only grows |
| Notifier.Notify | index.js:89-97 | the subscriber loop records every subscriber's key; each message announces the entry to a subscriber whose key was absent; nothing is sent when all keys are present |
| Notifier.NotifyOncePerChat | index.js:89-96 | within the subscriber loop a chat is sent the entry once exactly when its key was absent, whatever the order of the chats |
| Notifier.Fire | index.js:87-99 | the entry loop only adds keys, and only sends entries of the list whose time equals now, to subscribers whose key was absent |
| Notifier.FireFirstDueOnly | index.js:87-99 | only the first entry due now sends anything; later entries with the same time find their keys already recorded |
| Notifier.FireAfterAllKeys | index.js:91 | once every subscriber's key for the minute is recorded, the entry loop sends nothing and adds nothing |
| Notifier.KeyDistinguishesChats | index.js:90 | for one time and day, two chats never share a key, so sending to one never silences another |
| Notifier.KeyInjective | index.js:90 | keys of different (time, day, chat) triples differ whenever time and day contain no minus sign |
| Notifier.Key | index.js:90 | the key is the time, a minus sign, the day, a minus sign and the decimal text of the chat id, in that order |
| Notifier.TickKeyInjective | index.js:82-90 | keys built from an `HH:MM` time and a weekday name never collide across times, days or chats |
| Strings.DecimalRoundTrip | index.js:90 | the decimal text of a chat id inside the key reads back as the same id |
| Strings.Decimal | index.js:90 | the text of a chat id is non-empty, starts with a minus sign exactly for a negative id, and is otherwise digits |
| Strings.Lower | index.js:139 | `toLowerCase` on the day word keeps its length, turns each capital letter into its own lower-case letter and changes no other character |
| Strings.LowerIdempotent | index.js:139 | lower-casing an already lower-cased day word changes nothing |
| Strings.LessEqIsLexicographic | index.js:147 | the character-by-character string order equals lexicographic order: a prefix, or the smaller character at the first difference |
| Clock.ShapeHasNoDash | index.js:137 | a time of shape `\d{2}:\d{2}` holds no minus sign, so it cannot blur the fields of a key |
| Clock.TextOrderIsChronological | index.js:147 | on valid times the string order the day is sorted in is chronological order |
| Clock.ValidTime | index.js:203 | Luxon's `HH:mm` reads exactly the texts `00:00` to `23:59` and the end-of-day form `24:00`, described character by character |
| Clock.StartMs | index.js:203-204 | an entry's time is a whole number of minutes after local midnight, before the end of the day except for `24:00`, which is the end of the day |
| Schedules.TasksOf | index.js:86 | a day missing from the schedule, or mapped to `null`, has no tasks |
| Schedules.InitialSchedule | index.js:46 | a missing schedule file is replaced by exactly the seven weekdays, each with an empty list |
| Schedules.SortByTime | index.js:147 | the sort by time yields a sorted permutation in which entries with equal time keep their relative order |
| Schedules.SortSortedIsIdentity | index.js:147 | sorting an already sorted day changes nothing |
| Schedules.InsertionPoint | index.js:147 | the position where a stable sort places a new entry: after every entry not later than it, at the first strictly later one |
| Schedules.Insert | index.js:147 | one stable insertion step splices the entry in at its insertion point |
| Commands.Add | index.js:137-150 | rejects an unknown day (and fails on a `null` day) leaving the schedule alone; succeeds on every day holding a list, sorted or not, and that day becomes the old list plus the entry, sorted by time, stably, and every other day and the set of days are unchanged; no hour or minute range check |
| Commands.AddToSortedDay | index.js:146-147 | on a sorted day the new entry lands after every entry with an equal or earlier time and before every later one |
| Commands.AddKeepsScheduleSorted | index.js:146-148 | `/add` keeps every day of a sorted schedule sorted |
| Commands.AddToUnreadableSchedule | index.js:143-144 | when the file could not be parsed (read as `{}`) every day is rejected |
| Commands.AddToInitialSchedule | index.js:45-48 | the seven empty buckets written for a missing file accept each weekday in any letter case |
| Commands.Del | index.js:167-181 | rejects an unknown or `null` day, and a position outside 1..length; succeeds on every other request, and removes and returns exactly the entry at 1-based position n, keeps the others in order, shortens the day by one and leaves every other day alone |
| Commands.DelKeepsScheduleSorted | index.js:178 | `/del` keeps every day of a sorted schedule sorted |
| Commands.AddThenDel | index.js:146-178 | deleting the position `/add` just placed an entry at returns that entry and the schedule as it was before the add |
| Commands.DelThenAdd | index.js:146-178 | deleting an entry of a sorted day and adding it back restores the schedule, unless another entry with the same time followed it |
| Commands.List | index.js:152-165 | unknown day, no tasks (empty or `null` list), or the day's entries in order, one line each, numbered from 1 |
| Commands.ListAgreesWithDel | index.js:163-178 | `/del` accepts exactly the numbers `/list` shows, and removes the entry shown beside the number |
| Commands.FirstLater | index.js:202-205 | the position of the first entry strictly later than now, every earlier one not later; none only if no entry is later |
| Commands.Later | index.js:203-204 | an entry is later than now exactly when Luxon reads its time and its minute of the day comes after the current minute |
| Commands.EndOfDayIsLater | index.js:203-204 | an entry at `24:00`, which `/add` accepts, is later than every moment of the day |
| Commands.NextTask | index.js:196-211 | the first of today's entries strictly later than now, or none (the "all done" reply) exactly when no entry is later |
| Commands.NextTaskIsEarliest | index.js:201-205 | on a sorted day the entry found starts no later than any other entry later than now |
| Commands.CurrentMinuteIsNotNext | index.js:203-204 | an entry of the current minute is never the next task, even at second `:00.000` |

## Left out

- The Telegram client, the express server, the webhook setup and the `/health` route (index.js:18-40): network plumbing.
- File persistence: `readSchedule`, `writeSchedule`, `saveChatIds` and loading the chat ids (index.js:43-75). The schedule and subscribers are inputs. Only two outcomes of `readSchedule` are modelled: a missing file gives `Schedules.InitialSchedule`, and a parse error gives `{}`.
- JSON values of a day other than a list or `null` (numbers, strings, objects): the bot only ever writes lists.
- Time-zone conversion and `setInterval` timing (index.js:80-83, 187-188, 198-203). The day name, the `HH:MM` text and the milliseconds since midnight are parameters.
- The date that Luxon gives a `/next_task` entry is taken to be today's. A day-change between reading `now` and parsing the entry is not modelled.
- Message text, Markdown formatting and delivery failures: a message records only its chat and the entry it refers to.
- Interleaving of the timer and the command handlers over the shared files, which have no locking.
- `localeCompare` is modelled as code-unit lexicographic order. It agrees with locale collation on zero-padded `HH:MM` times; other time texts in a hand-edited file may collate differently.
- Strings are sequences of Unicode scalar values, not UTF-16 code units. This matters only for characters outside the Basic Multilingual Plane.
- Chat ids are unbounded integers; JavaScript numbers above 2^53 lose precision.
- The `/add`, `/del` and `/list` patterns are unanchored regular expressions. The model starts from their captured groups: the day word, the time text, the task text and the parsed position.
- `/start` (subscribing a chat) and `/plan_today` are not part of this model. `/plan_today` shows the same `TasksOf` list.
- utils/scheduler.js: it registers `node-cron` jobs. Its only logic turns `HH:MM` into the cron fields `minute hour * * *`, and the behaviour lives in the cron library.

=== FILE: clock.dfy ===
/**
  Times of day. The schedule stores a time as text; the `/add` pattern only
  guarantees the shape `\d{2}:\d{2}`, while Luxon's `HH:mm` parser, used by
  `/next_task`, also wants hour 00-23 and minute 00-59, or the end-of-day
  form `24:00`.
 */
module Clock {
  import opened Strings

  /** The shape `\d{2}:\d{2}` matched by the `/add` command. */
  predicate TimeShape(t: string) {
    |t| == 5 && IsDigit(t[0]) && IsDigit(t[1]) && t[2] == ':' && IsDigit(t[3]) && IsDigit(t[4])
  }

  function Hour(t: string): nat
    requires TimeShape(t)
  {
    10 * DigitValue(t[0]) + DigitValue(t[1])
  }

  function Minute(t: string): nat
    requires TimeShape(t)
  {
    10 * DigitValue(t[3]) + DigitValue(t[4])
  }

  /**
    Whether `DateTime.fromFormat(t, 'HH:mm')` yields a valid time: read as
    text, exactly the times from `00:00` to `23:59`, and `24:00`, which Luxon
    accepts as the midnight that ends the day.
   */
  predicate ValidTime(t: string)
    ensures ValidTime(t) <==>
      || (&& TimeShape(t)
          && (t[0] <= '1' || (t[0] == '2' && t[1] <= '3'))
          && t[3] <= '5')
      || t == "24:00"
  {
    && TimeShape(t)
    && ((Hour(t) <= 23 && Minute(t) <= 59) || (Hour(t) == 24 && Minute(t) == 0))
  }

  const MsPerMinute: nat := 60_000
  const MsPerDay: nat := 24 * 60 * MsPerMinute

  /**
    Milliseconds from local midnight to the start (second :00.000) of the
    minute `t`: a whole number of minutes within the day, or the whole day
    for `24:00`.
   */
  function StartMs(t: string): (r: nat)
    requires ValidTime(t)
    ensures r <= MsPerDay
    ensures r == MsPerDay <==> t == "24:00"
    ensures r % MsPerMinute == 0
  {
    (60 * Hour(t) + Minute(t)) * MsPerMinute
  }

  /** A zero-padded time has no minus sign, so it cannot blur the fields of a notification key. */
  lemma ShapeHasNoDash(t: string)
    requires TimeShape(t)
    ensures '-' !in t
  {
    assert forall i :: 0 <= i < |t| ==> t[i] == ':' || IsDigit(t[i]);
  }

  /**
    On valid times, string order (the order the schedule is sorted in) is
    chronological order. Minutes up to 59 matter: "19:99" sorts before "20:00".
   */
  lemma TextOrderIsChronological(a: string, b: string)
    requires ValidTime(a) && ValidTime(b)
    ensures LessEq(a, b) <==> StartMs(a) <= StartMs(b)
  {
    FiveCharOrder(a, b);
    var x0, x1, x3, x4 := DigitValue(a[0]), DigitValue(a[1]), DigitValue(a[3]), DigitValue(a[4]);
    var y0, y1, y3, y4 := DigitValue(b[0]), DigitValue(b[1]), DigitValue(b[3]), DigitValue(b[4]);
    assert StartMs(a) == (600 * x0 + 60 * x1 + 10 * x3 + x4) * MsPerMinute;
    assert StartMs(b) == (600 * y0 + 60 * y1 + 10 * y3 + y4) * MsPerMinute;
    assert 10 * x3 + x4 <= 59 && 10 * y3 + y4 <= 59;
  }

  /** String order on two times, spelled out character by character; the colons always agree. */
  lemma FiveCharOrder(a: string, b: string)
    requires TimeShape(a) && TimeShape(b)
    ensures LessEq(a, b) <==>
      a[0] < b[0] || (a[0] == b[0] && (a[1] < b[1] || (a[1] == b[1] &&
      (a[3] < b[3] || (a[3] == b[3] && a[4] <= b[4])))))
  {
    LessEqStep(a, b);
    LessEqStep(a[1..], b[1..]);
    LessEqStep(a[2..], b[2..]);
    LessEqStep(a[3..], b[3..]);
    LessEqStep(a[4..], b[4..]);
    assert a[1..][1..] == a[2..] && b[1..][1..] == b[2..];
    assert a[2..][1..] == a[3..] && b[2..][1..] == b[3..];
    assert a[3..][1..] == a[4..] && b[3..][1..] == b[4..];
    assert a[4..][1..] == [] && b[4..][1..] == [];
  }
}

=== FILE: commands.dfy ===
/**
  The schedule commands with the chat I/O taken away: `/add`, `/del`,
  `/list` and `/next_task` as functions of the schedule read from the file.
  The day word is the `\w+` group of the command and is lower-cased first.
 */
module Commands {
  import opened Wrappers
  import opened Strings
  import opened Clock
  import opened Schedules

  /** Why a command leaves the schedule alone. */
  datatype Rejection =
    | UnknownDay    // the day is not a key of the schedule; the user is told so
    | NullDay       // the day maps to `null`: `push` throws before anything is written
    | NoSuchNumber  // `/del` was given a position outside the day's list

  /** Every day's list is sorted by time. */
  ghost predicate WellSorted(schedule: Schedule) {
    forall d :: d in schedule && schedule[d].Entries? ==> Sorted(schedule[d].items)
  }

  // ---------------------------------------------------------------------------
  // /add <day> <HH:MM> <task>
  // ---------------------------------------------------------------------------

  /**
    Appends the entry to the day's list and stable-sorts the list by time. The
    time has the shape `\d{2}:\d{2}` but its hour and minute are not checked.
   */
  function Add(schedule: Schedule, dayWord: string, time: string, task: string): (r: Result<Schedule, Rejection>)
    ensures Lower(dayWord) !in schedule <==> r == Failure(UnknownDay)
    ensures (Lower(dayWord) in schedule && schedule[Lower(dayWord)].Null?) <==> r == Failure(NullDay)
    ensures Lower(dayWord) in schedule && schedule[Lower(dayWord)].Entries? ==> r.Success?
    ensures r.Success? ==> r.value.Keys == schedule.Keys
    ensures r.Success? ==> forall d :: d in schedule && d != Lower(dayWord) ==> r.value[d] == schedule[d]
    ensures r.Success? && Lower(dayWord) in schedule && schedule[Lower(dayWord)].Entries? ==>
      var before := schedule[Lower(dayWord)].items;
      var after := r.value[Lower(dayWord)];
      && after.Entries?
      && Sorted(after.items)
      && multiset(after.items) == multiset(before) + multiset{Entry(time, task)}
      && forall t :: OfTime(after.items, t) == OfTime(before + [Entry(time, task)], t)
  {
    var day := Lower(dayWord);
    if day !in schedule then Failure(UnknownDay)
    else if schedule[day].Null? then Failure(NullDay)
    else
      var items := schedule[day].items;
      Success(schedule[day := Entries(SortByTime(items + [Entry(time, task)]))])
  }

  /**
    On a sorted day the new entry is spliced in after every entry whose time
    is not later than its own (equal times included) and before every later one.
   */
  lemma AddToSortedDay(schedule: Schedule, dayWord: string, time: string, task: string)
    requires Lower(dayWord) in schedule && schedule[Lower(dayWord)].Entries?
    requires Sorted(schedule[Lower(dayWord)].items)
    ensures var before := schedule[Lower(dayWord)].items;
      var r := Add(schedule, dayWord, time, task);
      exists k :: 0 <= k <= |before|
        && r == Success(schedule[Lower(dayWord) := Entries(before[..k] + [Entry(time, task)] + before[k..])])
        && (forall i :: 0 <= i < k ==> LessEq(before[i].time, time))
        && (forall i :: k <= i < |before| ==> !LessEq(before[i].time, time))
  {
    var before := schedule[Lower(dayWord)].items;
    var e := Entry(time, task);
    AddSortsLikeInsert(before, e);
    SortedPastInsertionPoint(before, time);
    var k := InsertionPoint(before, time);
    assert k <= |before|;
  }

  lemma AddValue(schedule: Schedule, dayWord: string, time: string, task: string)
    requires Lower(dayWord) in schedule && schedule[Lower(dayWord)].Entries?
    ensures var day := Lower(dayWord);
      Add(schedule, dayWord, time, task) ==
        Success(schedule[day := Entries(SortByTime(schedule[day].items + [Entry(time, task)]))])
  {
  }

  lemma DelValue(schedule: Schedule, dayWord: string, n: nat)
    requires Lower(dayWord) in schedule && schedule[Lower(dayWord)].Entries?
    requires 1 <= n <= |schedule[Lower(dayWord)].items|
    ensures var day := Lower(dayWord); var items := schedule[day].items;
      Del(schedule, dayWord, n) == Success((schedule[day := Entries(items[..n - 1] + items[n..])], items[n - 1]))
  {
  }

  lemma AddSortsLikeInsert(before: seq<Entry>, e: Entry)
    requires Sorted(before)
    ensures SortByTime(before + [e]) == Insert(before, e)
  {
    assert (before + [e])[..|before|] == before;
    SortSortedIsIdentity(before);
  }

  /** `/add` keeps every day of a well-sorted schedule sorted. */
  lemma AddKeepsScheduleSorted(schedule: Schedule, dayWord: string, time: string, task: string)
    requires WellSorted(schedule)
    ensures Add(schedule, dayWord, time, task).Success? ==> WellSorted(Add(schedule, dayWord, time, task).value)
  {
  }

  /** A schedule file that failed to parse reads as `{}`, and then every day is rejected. */
  lemma AddToUnreadableSchedule(dayWord: string, time: string, task: string)
    ensures Add(map[], dayWord, time, task) == Failure(UnknownDay)
  {
  }

  /** The seven empty buckets written for a missing file accept each weekday, in any letter case. */
  lemma AddToInitialSchedule(dayWord: string, time: string, task: string)
    requires Lower(dayWord) in WeekDays
    ensures Add(InitialSchedule(), dayWord, time, task) ==
      Success(InitialSchedule()[Lower(dayWord) := Entries([Entry(time, task)])])
  {
    assert [] + [Entry(time, task)] == [Entry(time, task)];
    SortSortedIsIdentity([Entry(time, task)]);
  }

  // ---------------------------------------------------------------------------
  // /del <day> <n>
  // ---------------------------------------------------------------------------

  /**
    Removes the entry at 1-based position `n` (the `\d+` group, read with
    `parseInt`) and returns the new schedule with the removed entry.
   */
  function Del(schedule: Schedule, dayWord: string, n: nat): (r: Result<(Schedule, Entry), Rejection>)
    ensures (Lower(dayWord) !in schedule || schedule[Lower(dayWord)].Null?) <==> r == Failure(UnknownDay)
    ensures (Lower(dayWord) in schedule && schedule[Lower(dayWord)].Entries?
             && !(1 <= n <= |schedule[Lower(dayWord)].items|)) <==> r == Failure(NoSuchNumber)
    ensures (Lower(dayWord) in schedule && schedule[Lower(dayWord)].Entries?
             && 1 <= n <= |schedule[Lower(dayWord)].items|) ==> r.Success?
    ensures r.Success? ==> r.value.0.Keys == schedule.Keys
    ensures r.Success? ==> forall d :: d in schedule && d != Lower(dayWord) ==> r.value.0[d] == schedule[d]
    ensures r.Success? && Lower(dayWord) in schedule && schedule[Lower(dayWord)].Entries? && 1 <= n ==>
      var before := schedule[Lower(dayWord)].items;
      var after := r.value.0[Lower(dayWord)];
      && n <= |before|
      && r.value.1 == before[n - 1]
      && after.Entries?
      && |after.items| == |before| - 1
      && (forall i :: 0 <= i < n - 1 ==> after.items[i] == before[i])
      && (forall i :: n - 1 <= i < |after.items| ==> after.items[i] == before[i + 1])
      && multiset(after.items) + multiset{r.value.1} == multiset(before)
  {
    var day := Lower(dayWord);
    var index := n as int - 1;
    if day !in schedule || schedule[day].Null? then Failure(UnknownDay)
    else
      var items := schedule[day].items;
      if index < 0 || index >= |items| then Failure(NoSuchNumber)
      else
        assert items == items[..index] + [items[index]] + items[index + 1..];
        Success((schedule[day := Entries(items[..index] + items[index + 1..])], items[index]))
  }

  /** `/del` keeps every day of a well-sorted schedule sorted. */
  lemma DelKeepsScheduleSorted(schedule: Schedule, dayWord: string, n: nat)
    requires WellSorted(schedule)
    ensures Del(schedule, dayWord, n).Success? ==> WellSorted(Del(schedule, dayWord, n).value.0)
  {
  }

  /** Deleting the entry `/add` just placed gives back the schedule as it was. */
  lemma AddThenDel(schedule: Schedule, dayWord: string, time: string, task: string)
    requires Lower(dayWord) in schedule && schedule[Lower(dayWord)].Entries?
    requires Sorted(schedule[Lower(dayWord)].items)
    ensures var k := InsertionPoint(schedule[Lower(dayWord)].items, time);
      Del(Add(schedule, dayWord, time, task).value, dayWord, k + 1) == Success((schedule, Entry(time, task)))
  {
    var day := Lower(dayWord);
    var before := schedule[day].items;
    var e := Entry(time, task);
    var k := InsertionPoint(before, time);
    AddSplices(schedule, dayWord, time, task);
    DelSpliced(schedule, dayWord, k, e);
  }

  lemma AddSplices(schedule: Schedule, dayWord: string, time: string, task: string)
    requires Lower(dayWord) in schedule && schedule[Lower(dayWord)].Entries?
    requires Sorted(schedule[Lower(dayWord)].items)
    ensures var day := Lower(dayWord); var before := schedule[day].items;
      var k := InsertionPoint(before, time);
      Add(schedule, dayWord, time, task) == Success(schedule[day := Entries(before[..k] + [Entry(time, task)] + before[k..])])
  {
    AddSortsLikeInsert(schedule[Lower(dayWord)].items, Entry(time, task));
    AddValue(schedule, dayWord, time, task);
  }

  /** Deleting position `k + 1` of a day into which `e` was spliced at `k` undoes the splice. */
  lemma DelSpliced(schedule: Schedule, dayWord: string, k: nat, e: Entry)
    requires Lower(dayWord) in schedule && schedule[Lower(dayWord)].Entries?
    requires k <= |schedule[Lower(dayWord)].items|
    ensures var day := Lower(dayWord); var before := schedule[day].items;
      Del(schedule[day := Entries(before[..k] + [e] + before[k..])], dayWord, k + 1) == Success((schedule, e))
  {
    var day := Lower(dayWord);
    var before := schedule[day].items;
    var after := before[..k] + [e] + before[k..];
    var added := schedule[day := Entries(after)];
    SpliceThenRemove(before, k, e);
    DelValue(added, dayWord, k + 1);
    UpdateBack(schedule, day, Entries(after));
  }

  /** Writing a key's old value back over a new one restores the map. */
  lemma UpdateBack<K, V>(m: map<K, V>, k: K, v: V)
    requires k in m
    ensures m[k := v][k := m[k]] == m
  {
  }

  lemma SpliceThenRemove(s: seq<Entry>, k: nat, e: Entry)
    requires k <= |s|
    ensures var spliced := s[..k] + [e] + s[k..];
      spliced[k] == e && spliced[..k] + spliced[k + 1..] == s
  {
  }

  /**
    Deleting an entry of a sorted day and adding it back restores the schedule,
    when no other entry with the same time followed it (the stable sort puts a
    re-added entry after its equals).
   */
  lemma DelThenAdd(schedule: Schedule, dayWord: string, n: nat)
    requires Lower(dayWord) in schedule && schedule[Lower(dayWord)].Entries?
    requires Sorted(schedule[Lower(dayWord)].items)
    requires 1 <= n <= |schedule[Lower(dayWord)].items|
    requires var items := schedule[Lower(dayWord)].items;
      n == |items| || !LessEq(items[n].time, items[n - 1].time)
    ensures var r := Del(schedule, dayWord, n);
      r.Success? && Add(r.value.0, dayWord, r.value.1.time, r.value.1.task) == Success(schedule)
  {
    var day := Lower(dayWord);
    var before := schedule[day].items;
    var e := before[n - 1];
    var rest := before[..n - 1] + before[n..];
    var removed := schedule[day := Entries(rest)];
    DelValue(schedule, dayWord, n);
    var r := Del(schedule, dayWord, n);
    assert r == Success((removed, e));
    RemoveKeepsSorted(before, n - 1);
    RestoreAt(before, n - 1);
    AddRestores(schedule, dayWord, rest, e);
    assert Add(r.value.0, dayWord, r.value.1.time, r.value.1.task) == Add(removed, dayWord, e.time, e.task);
  }

  /** Adding `e` to a sorted day from which it was taken, when it sorts back into place, restores the schedule. */
  lemma AddRestores(schedule: Schedule, dayWord: string, rest: seq<Entry>, e: Entry)
    requires Lower(dayWord) in schedule && schedule[Lower(dayWord)].Entries?
    requires Sorted(rest) && Insert(rest, e) == schedule[Lower(dayWord)].items
    ensures Add(schedule[Lower(dayWord) := Entries(rest)], dayWord, e.time, e.task) == Success(schedule)
  {
    var day := Lower(dayWord);
    var removed := schedule[day := Entries(rest)];
    assert Entry(e.time, e.task) == e;
    AddValue(removed, dayWord, e.time, e.task);
    AddSortsLikeInsert(rest, e);
    UpdateBack(schedule, day, Entries(rest));
  }

  lemma RemoveKeepsSorted(s: seq<Entry>, index: nat)
    requires Sorted(s) && index < |s|
    ensures Sorted(s[..index] + s[index + 1..])
  {
  }

  /** Re-inserting the last entry of its time group puts it back where it was. */
  lemma RestoreAt(s: seq<Entry>, index: nat)
    requires Sorted(s) && index < |s|
    requires index + 1 == |s| || !LessEq(s[index + 1].time, s[index].time)
    ensures Insert(s[..index] + s[index + 1..], s[index]) == s
  {
    var e := s[index];
    var rest := s[..index] + s[index + 1..];
    forall i | 0 <= i < index
      ensures LessEq(rest[i].time, e.time)
    {
      assert rest[i] == s[i];
    }
    if index < |rest| {
      assert rest[index] == s[index + 1];
    }
    InsertionPointIs(rest, e.time, index);
    assert rest[..index] + [e] + rest[index..] == s;
  }

  // ---------------------------------------------------------------------------
  // /list <day>
  // ---------------------------------------------------------------------------

  /** One line of the listing: the 1-based number shown and the entry. */
  datatype Line = Line(number: nat, entry: Entry)

  datatype Listing = NoSuchDay | NoTasks | Numbered(lines: seq<Line>)

  /** The day's entries numbered from 1 in list order. */
  function List(schedule: Schedule, dayWord: string): (r: Listing)
    ensures r.NoSuchDay? <==> Lower(dayWord) !in schedule
    ensures r.NoTasks? <==> Lower(dayWord) in schedule && |TasksOf(schedule, Lower(dayWord))| == 0
    ensures r.Numbered? ==> |r.lines| == |TasksOf(schedule, Lower(dayWord))|
    ensures r.Numbered? ==> forall i :: 0 <= i < |r.lines| ==> r.lines[i].entry == TasksOf(schedule, Lower(dayWord))[i]
    ensures r.Numbered? ==> forall i :: 0 <= i < |r.lines| ==> r.lines[i].number == i + 1
  {
    var day := Lower(dayWord);
    if day !in schedule then NoSuchDay
    else if schedule[day].Null? || |schedule[day].items| == 0 then NoTasks
    else
      var items := schedule[day].items;
      Numbered(seq(|items|, i requires 0 <= i < |items| => Line(i + 1, items[i])))
  }

  /**
    `/list` and `/del` agree on numbering: `/del` accepts exactly the numbers
    `/list` shows, and removes the entry shown beside the number.
   */
  lemma ListAgreesWithDel(schedule: Schedule, dayWord: string, n: nat)
    requires List(schedule, dayWord).Numbered?
    ensures var lines := List(schedule, dayWord).lines;
      Del(schedule, dayWord, n).Success? <==> exists i :: 0 <= i < |lines| && lines[i].number == n
    ensures var lines := List(schedule, dayWord).lines;
      forall i :: 0 <= i < |lines| && lines[i].number == n ==> Del(schedule, dayWord, n).value.1 == lines[i].entry
  {
  }

  // ---------------------------------------------------------------------------
  // /next_task
  // ---------------------------------------------------------------------------

  /**
    Whether an entry's time, read by Luxon as today at second :00.000, is
    strictly after `nowMs` (milliseconds since local midnight). A time Luxon
    cannot read gives an invalid date, and comparisons with it are false.
   */
  predicate Later(time: string, nowMs: nat)
    ensures Later(time, nowMs) <==>
      ValidTime(time) && 60 * Hour(time) + Minute(time) > nowMs / MsPerMinute
  {
    if ValidTime(time) then MinuteAfter(60 * Hour(time) + Minute(time), nowMs); StartMs(time) > nowMs
    else false
  }

  /** A minute of the day starts after `nowMs` exactly when it is later than the current minute. */
  lemma MinuteAfter(m: nat, nowMs: nat)
    ensures m * MsPerMinute > nowMs <==> m > nowMs / MsPerMinute
  {
    var q := nowMs / MsPerMinute;
    if m > q {
      assert m * MsPerMinute >= (q + 1) * MsPerMinute;
    } else {
      assert m * MsPerMinute <= q * MsPerMinute;
    }
  }

  /** The position of the first entry later than `nowMs`, as `Array.prototype.find` scans. */
  function FirstLater(tasks: seq<Entry>, nowMs: nat): (r: Option<nat>)
    ensures r.Some? ==> r.value < |tasks| && Later(tasks[r.value].time, nowMs)
    ensures r.Some? ==> forall j :: 0 <= j < r.value ==> !Later(tasks[j].time, nowMs)
    ensures r.None? <==> forall j :: 0 <= j < |tasks| ==> !Later(tasks[j].time, nowMs)
    decreases |tasks|
  {
    if |tasks| == 0 then None
    else if Later(tasks[0].time, nowMs) then Some(0)
    else match FirstLater(tasks[1..], nowMs)
      case None => None
      case Some(i) => Some(i + 1)
  }

  /** The first of today's entries later than now, or `None` for the "all done" reply. */
  function NextTask(schedule: Schedule, today: string, nowMs: nat): (r: Option<Entry>)
    ensures r.None? <==> forall e :: e in TasksOf(schedule, today) ==> !Later(e.time, nowMs)
    ensures r.Some? ==> var tasks := TasksOf(schedule, today);
      exists i :: 0 <= i < |tasks| && tasks[i] == r.value && Later(r.value.time, nowMs)
        && forall j :: 0 <= j < i ==> !Later(tasks[j].time, nowMs)
  {
    var tasks := TasksOf(schedule, today);
    match FirstLater(tasks, nowMs)
    case None => None
    case Some(i) => Some(tasks[i])
  }

  /** On a sorted day the entry found is the earliest of all entries later than now. */
  lemma NextTaskIsEarliest(schedule: Schedule, today: string, nowMs: nat)
    requires Sorted(TasksOf(schedule, today))
    ensures var r := NextTask(schedule, today, nowMs);
      r.Some? ==> forall e :: e in TasksOf(schedule, today) && Later(e.time, nowMs) ==>
        StartMs(r.value.time) <= StartMs(e.time)
  {
    var tasks := TasksOf(schedule, today);
    var r := FirstLater(tasks, nowMs);
    if r.Some? {
      var i := r.value;
      forall e | e in tasks && Later(e.time, nowMs)
        ensures StartMs(tasks[i].time) <= StartMs(e.time)
      {
        var j :| 0 <= j < |tasks| && tasks[j] == e;
        assert Later(tasks[j].time, nowMs);
        assert i <= j;
        if i < j {
          TextOrderIsChronological(tasks[i].time, e.time);
        }
      }
    }
  }

  /** An entry at `24:00` is read as the midnight ending the day, so it is later than any moment of the day. */
  lemma EndOfDayIsLater(nowMs: nat)
    requires nowMs < MsPerDay
    ensures Later("24:00", nowMs)
  {
  }

  /** An entry of the current minute is never the next task, not even at second :00.000. */
  lemma CurrentMinuteIsNotNext(time: string, nowMs: nat)
    requires ValidTime(time) && StartMs(time) <= nowMs < StartMs(time) + MsPerMinute
    ensures !Later(time, nowMs)
  {
  }
}

=== FILE: notifier.dfy ===
/**
  The body of the scheduler's one-minute timer. Its state is the set of
  notification keys already sent; each tick is given today's day name, the
  current `HH:MM` text, the schedule and the subscribers, and yields the
  reminders to send and the new key set.
 */
module Notifier {
  import opened Strings
  import opened Clock
  import opened Schedules

  /** A Telegram chat id, a JavaScript integer. */
  type ChatId = int

  /** The minute at which the key set is emptied, after that minute's sends. */
  const Midnight: string := "00:00"

  /** One reminder: which chat it goes to and which schedule entry it announces. */
  datatype Message = Message(chat: ChatId, entry: Entry)

  datatype TickResult = TickResult(sent: set<string>, messages: seq<Message>)

  /** The de-duplication key `${time}-${day}-${chatId}`; the task text is not part of it. */
  function Key(time: string, day: string, chat: ChatId): (r: string)
    ensures |r| == |time| + |day| + |Decimal(chat)| + 2
    ensures r[..|time|] == time && r[|time|] == '-'
    ensures r[|time| + 1..|time| + 1 + |day|] == day && r[|time| + 1 + |day|] == '-'
    ensures r[|time| + |day| + 2..] == Decimal(chat)
  {
    time + "-" + day + "-" + Decimal(chat)
  }

  /** The keys of every subscriber for one time of one day. */
  ghost function KeysFor(time: string, day: string, subscribers: seq<ChatId>): set<string> {
    set c | c in subscribers :: Key(time, day, c)
  }

  /** The messages addressed to chat `c`, in sending order. */
  ghost function To(ms: seq<Message>, c: ChatId): seq<Message>
    decreases |ms|
  {
    if |ms| == 0 then [] else (if ms[0].chat == c then [ms[0]] else []) + To(ms[1..], c)
  }

  lemma {:induction false} ToConcat(a: seq<Message>, b: seq<Message>, c: ChatId)
    ensures To(a + b, c) == To(a, c) + To(b, c)
    decreases |a|
  {
    if |a| > 0 {
      assert (a + b)[1..] == a[1..] + b;
      ToConcat(a[1..], b, c);
    } else {
      assert a + b == b;
    }
  }

  /** For a fixed time and day, different chats have different keys. */
  lemma KeyDistinguishesChats(time: string, day: string, a: ChatId, b: ChatId)
    ensures Key(time, day, a) == Key(time, day, b) ==> a == b
  {
    var prefix := time + "-" + day + "-";
    if Key(time, day, a) == Key(time, day, b) {
      assert Decimal(a) == Key(time, day, a)[|prefix|..];
      assert Decimal(b) == Key(time, day, b)[|prefix|..];
      DecimalInjective(a, b);
    }
  }

  /** The position of the first minus sign of `k`, or `|k|` when there is none. */
  ghost function DashIndex(k: string): (i: nat)
    ensures i <= |k|
    decreases |k|
  {
    if |k| == 0 || k[0] == '-' then 0 else 1 + DashIndex(k[1..])
  }

  lemma {:induction false} DashIndexAfter(s: string, rest: string)
    requires '-' !in s
    ensures DashIndex(s + "-" + rest) == |s|
    decreases |s|
  {
    if |s| > 0 {
      assert (s + "-" + rest)[1..] == s[1..] + "-" + rest;
      DashIndexAfter(s[1..], rest);
    }
  }

  /** Splitting at the first minus sign recovers a dash-free prefix and what follows it. */
  lemma FirstDash(s: string, rest: string, t: string, rest': string)
    requires '-' !in s && '-' !in t
    requires s + "-" + rest == t + "-" + rest'
    ensures s == t && rest == rest'
  {
    var k := s + "-" + rest;
    DashIndexAfter(s, rest);
    DashIndexAfter(t, rest');
    assert s == k[..|s|] && t == k[..|t|];
    assert rest == k[|s| + 1..] && rest' == k[|t| + 1..];
  }

  /**
    Keys never collide across recipients, times or days, provided the time and
    the day name carry no minus sign (true of `HH:MM` and of weekday names).
   */
  lemma KeyInjective(t1: string, d1: string, c1: ChatId, t2: string, d2: string, c2: ChatId)
    requires '-' !in t1 && '-' !in t2 && '-' !in d1 && '-' !in d2
    requires Key(t1, d1, c1) == Key(t2, d2, c2)
    ensures t1 == t2 && d1 == d2 && c1 == c2
  {
    var rest1, rest2 := d1 + "-" + Decimal(c1), d2 + "-" + Decimal(c2);
    KeyFields(t1, d1, c1);
    KeyFields(t2, d2, c2);
    FirstDash(t1, rest1, t2, rest2);
    FirstDash(d1, Decimal(c1), d2, Decimal(c2));
    DecimalInjective(c1, c2);
  }

  /**
    The keys the timer actually builds, from an `HH:MM` text and a weekday
    name, never collide across recipients, times or days.
   */
  lemma TickKeyInjective(t1: string, d1: string, c1: ChatId, t2: string, d2: string, c2: ChatId)
    requires TimeShape(t1) && TimeShape(t2) && d1 in WeekDays && d2 in WeekDays
    requires Key(t1, d1, c1) == Key(t2, d2, c2)
    ensures t1 == t2 && d1 == d2 && c1 == c2
  {
    ShapeHasNoDash(t1);
    ShapeHasNoDash(t2);
    WeekDaysHaveNoDash(d1);
    WeekDaysHaveNoDash(d2);
    KeyInjective(t1, d1, c1, t2, d2, c2);
  }

  lemma KeyFields(t: string, d: string, c: ChatId)
    ensures Key(t, d, c) == t + "-" + (d + "-" + Decimal(c))
  {
  }

  /**
    The inner loop over the subscribers for one due entry: each chat whose key
    is absent gets the reminder and its key is recorded.
   */
  function Notify(sent: set<string>, day: string, e: Entry, subscribers: seq<ChatId>): (r: TickResult)
    ensures r.sent == sent + KeysFor(e.time, day, subscribers)
    ensures forall m :: m in r.messages ==>
      m.entry == e && m.chat in subscribers && Key(e.time, day, m.chat) !in sent
    ensures KeysFor(e.time, day, subscribers) <= sent ==> r.messages == []
    decreases |subscribers|
  {
    if |subscribers| == 0 then TickResult(sent, [])
    else
      var c := subscribers[0];
      var key := Key(e.time, day, c);
      assert KeysFor(e.time, day, subscribers) == {key} + KeysFor(e.time, day, subscribers[1..]);
      if key in sent then Notify(sent, day, e, subscribers[1..])
      else
        var rest := Notify(sent + {key}, day, e, subscribers[1..]);
        TickResult(rest.sent, [Message(c, e)] + rest.messages)
  }

  /** Each chat gets the entry exactly once if its key was absent, and otherwise not at all. */
  lemma {:induction false} NotifyOncePerChat(sent: set<string>, day: string, e: Entry, subscribers: seq<ChatId>, c: ChatId)
    ensures To(Notify(sent, day, e, subscribers).messages, c) ==
      if c in subscribers && Key(e.time, day, c) !in sent then [Message(c, e)] else []
    decreases |subscribers|
  {
    if |subscribers| > 0 {
      var c0 := subscribers[0];
      var key := Key(e.time, day, c0);
      KeyDistinguishesChats(e.time, day, c, c0);
      if key in sent {
        NotifyOncePerChat(sent, day, e, subscribers[1..], c);
      } else {
        var rest := Notify(sent + {key}, day, e, subscribers[1..]);
        NotifyOncePerChat(sent + {key}, day, e, subscribers[1..], c);
        ToConcat([Message(c0, e)], rest.messages, c);
      }
    }
  }

  /** The outer loop over today's entries: only entries whose time text equals `now` fire. */
  function Fire(sent: set<string>, day: string, now: string, tasks: seq<Entry>, subscribers: seq<ChatId>): (r: TickResult)
    ensures sent <= r.sent
    ensures forall m :: m in r.messages ==>
      m.chat in subscribers && m.entry in tasks && m.entry.time == now && Key(now, day, m.chat) !in sent
    decreases |tasks|
  {
    if |tasks| == 0 then TickResult(sent, [])
    else
      var first := if tasks[0].time == now then Notify(sent, day, tasks[0], subscribers) else TickResult(sent, []);
      var rest := Fire(first.sent, day, now, tasks[1..], subscribers);
      TickResult(rest.sent, first.messages + rest.messages)
  }

  /** Once every subscriber's key for this minute is recorded, nothing more fires. */
  lemma {:induction false} FireAfterAllKeys(sent: set<string>, day: string, now: string, tasks: seq<Entry>, subscribers: seq<ChatId>)
    requires KeysFor(now, day, subscribers) <= sent
    ensures Fire(sent, day, now, tasks, subscribers) == TickResult(sent, [])
    decreases |tasks|
  {
    if |tasks| > 0 {
      if tasks[0].time == now {
        var first := Notify(sent, day, tasks[0], subscribers);
        assert first == TickResult(sent, []);
      }
      FireAfterAllKeys(sent, day, now, tasks[1..], subscribers);
    }
  }

  /** Only the first entry due at `now` produces messages; later ones share its keys. */
  lemma {:induction false} FireFirstDueOnly(sent: set<string>, day: string, now: string, tasks: seq<Entry>, subscribers: seq<ChatId>)
    ensures var due := OfTime(tasks, now);
      Fire(sent, day, now, tasks, subscribers) ==
        if |due| == 0 then TickResult(sent, []) else Notify(sent, day, due[0], subscribers)
    decreases |tasks|
  {
    if |tasks| > 0 {
      if tasks[0].time == now {
        var first := Notify(sent, day, tasks[0], subscribers);
        FireAfterAllKeys(first.sent, day, now, tasks[1..], subscribers);
        assert first.messages + [] == first.messages;
      } else {
        FireFirstDueOnly(sent, day, now, tasks[1..], subscribers);
      }
    }
  }

  /** The entries of today's bucket that are due at `now`. */
  ghost function Due(schedule: Schedule, day: string, now: string): seq<Entry> {
    OfTime(TasksOf(schedule, day), now)
  }

  /**
    One timer tick. With no subscribers it returns before anything else, even
    at midnight. Otherwise today's due entries are sent against the old key set,
    and at `00:00` the key set is emptied afterwards.
   */
  function Tick(sent: set<string>, day: string, now: string, schedule: Schedule, subscribers: seq<ChatId>): (r: TickResult)
    ensures forall m :: m in r.messages ==>
      m.chat in subscribers && m.entry in TasksOf(schedule, day) && m.entry.time == now
  {
    if |subscribers| == 0 then TickResult(sent, [])
    else
      var fired := Fire(sent, day, now, TasksOf(schedule, day), subscribers);
      if now == Midnight then TickResult({}, fired.messages) else fired
  }

  /** An empty subscriber list sends nothing and keeps every key, even at `00:00`. */
  lemma TickWithoutSubscribers(sent: set<string>, day: string, now: string, schedule: Schedule)
    ensures Tick(sent, day, now, schedule, []) == TickResult(sent, [])
  {
  }

  /**
    What one tick sends to chat `c`: the first entry due now, exactly once, if
    `c` subscribes and its key for this minute and day was absent before the
    tick; nothing otherwise. This holds at midnight too, since the clear comes
    after the sends.
   */
  lemma TickDelivery(sent: set<string>, day: string, now: string, schedule: Schedule, subscribers: seq<ChatId>, c: ChatId)
    ensures var due := Due(schedule, day, now);
      To(Tick(sent, day, now, schedule, subscribers).messages, c) ==
        if c in subscribers && |due| > 0 && Key(now, day, c) !in sent then [Message(c, due[0])] else []
  {
    var due := Due(schedule, day, now);
    if |subscribers| > 0 {
      FireFirstDueOnly(sent, day, now, TasksOf(schedule, day), subscribers);
      if |due| > 0 {
        assert due[0].time == now by { DueHaveTime(TasksOf(schedule, day), now); }
        NotifyOncePerChat(sent, day, due[0], subscribers, c);
      }
    }
  }

  lemma {:induction false} DueHaveTime(s: seq<Entry>, t: string)
    ensures forall e :: e in OfTime(s, t) ==> e.time == t
    decreases |s|
  {
    if |s| > 0 {
      DueHaveTime(s[1..], t);
    }
  }

  /** Away from midnight the key set only grows, by every subscriber's key when something is due. */
  lemma TickSentSet(sent: set<string>, day: string, now: string, schedule: Schedule, subscribers: seq<ChatId>)
    requires now != Midnight
    ensures Tick(sent, day, now, schedule, subscribers).sent ==
      sent + if |Due(schedule, day, now)| > 0 then KeysFor(now, day, subscribers) else {}
  {
    var due := Due(schedule, day, now);
    if |subscribers| > 0 {
      FireFirstDueOnly(sent, day, now, TasksOf(schedule, day), subscribers);
      if |due| > 0 {
        DueHaveTime(TasksOf(schedule, day), now);
        assert due[0] in due;
      }
    }
  }

  /** A midnight tick with subscribers leaves the key set empty. */
  lemma TickMidnightClears(sent: set<string>, day: string, schedule: Schedule, subscribers: seq<ChatId>)
    requires |subscribers| > 0
    ensures Tick(sent, day, Midnight, schedule, subscribers).sent == {}
  {
  }

  /** Repeating a tick within the same minute (other than midnight) sends nothing and changes nothing. */
  lemma TickIdempotent(sent: set<string>, day: string, now: string, schedule: Schedule, subscribers: seq<ChatId>)
    requires now != Midnight
    ensures var r := Tick(sent, day, now, schedule, subscribers);
      Tick(r.sent, day, now, schedule, subscribers) == TickResult(r.sent, [])
  {
    var r := Tick(sent, day, now, schedule, subscribers);
    TickSentSet(sent, day, now, schedule, subscribers);
    if |subscribers| > 0 {
      FireFirstDueOnly(r.sent, day, now, TasksOf(schedule, day), subscribers);
      var due := Due(schedule, day, now);
      if |due| > 0 {
        DueHaveTime(TasksOf(schedule, day), now);
        assert due[0] in due;
        FireAfterAllKeys(r.sent, day, now, TasksOf(schedule, day), subscribers);
      }
    }
  }

  /**
    After a midnight tick every subscriber can be reminded again: the next tick
    with an entry due sends its first due entry to each of them.
   */
  lemma TickReArmsAfterMidnight(sent: set<string>, day0: string, schedule0: Schedule,
                                day: string, now: string, schedule: Schedule, subscribers: seq<ChatId>, c: ChatId)
    requires |subscribers| > 0 && c in subscribers
    requires |Due(schedule, day, now)| > 0
    ensures var cleared := Tick(sent, day0, Midnight, schedule0, subscribers).sent;
      To(Tick(cleared, day, now, schedule, subscribers).messages, c) == [Message(c, Due(schedule, day, now)[0])]
  {
    TickDelivery({}, day, now, schedule, subscribers, c);
  }

  // ---------------------------------------------------------------------------
  // A sequence of ticks
  // ---------------------------------------------------------------------------

  /** What the timer sees on one tick. */
  datatype TickInput = TickInput(day: string, now: string, schedule: Schedule, subscribers: seq<ChatId>)

  /** A message together with the day and minute of the tick that sent it. */
  datatype Delivery = Delivery(day: string, time: string, message: Message)

  datatype RunResult = RunResult(sent: set<string>, deliveries: seq<Delivery>)

  function Stamp(day: string, time: string, ms: seq<Message>): seq<Delivery>
    decreases |ms|
  {
    if |ms| == 0 then [] else [Delivery(day, time, ms[0])] + Stamp(day, time, ms[1..])
  }

  /**
    The ticks in order, each starting from the key set the previous one left.
    Keys are only ever added between midnights.
   */
  function Run(sent: set<string>, ticks: seq<TickInput>): (r: RunResult)
    ensures (forall i :: 0 <= i < |ticks| ==> ticks[i].now != Midnight) ==> sent <= r.sent
    decreases |ticks|
  {
    if |ticks| == 0 then RunResult(sent, [])
    else
      var t := ticks[0];
      var tick := Tick(sent, t.day, t.now, t.schedule, t.subscribers);
      var rest := Run(tick.sent, ticks[1..]);
      assert t.now != Midnight ==> sent <= tick.sent by {
        if t.now != Midnight {
          TickSentSet(sent, t.day, t.now, t.schedule, t.subscribers);
        }
      }
      RunResult(rest.sent, Stamp(t.day, t.now, tick.messages) + rest.deliveries)
  }

  /** How many deliveries went to `chat` from ticks at minute `time` of day `day`. */
  ghost function Delivered(ds: seq<Delivery>, day: string, time: string, chat: ChatId): nat
    decreases |ds|
  {
    if |ds| == 0 then 0
    else
      (if ds[0].day == day && ds[0].time == time && ds[0].message.chat == chat then 1 else 0)
      + Delivered(ds[1..], day, time, chat)
  }

  lemma {:induction false} DeliveredConcat(a: seq<Delivery>, b: seq<Delivery>, day: string, time: string, chat: ChatId)
    ensures Delivered(a + b, day, time, chat) == Delivered(a, day, time, chat) + Delivered(b, day, time, chat)
    decreases |a|
  {
    if |a| > 0 {
      assert (a + b)[1..] == a[1..] + b;
      DeliveredConcat(a[1..], b, day, time, chat);
    } else {
      assert a + b == b;
    }
  }

  lemma {:induction false} DeliveredStamp(d: string, t: string, ms: seq<Message>, day: string, time: string, chat: ChatId)
    ensures Delivered(Stamp(d, t, ms), day, time, chat) == if d == day && t == time then |To(ms, chat)| else 0
    decreases |ms|
  {
    if |ms| > 0 {
      DeliveredStamp(d, t, ms[1..], day, time, chat);
    }
  }

  /**
    At most once between resets: over ticks none of which falls at `00:00`,
    each (time, day, chat) is reminded at most once, and not at all if its key
    was already recorded when the run began.
   */
  lemma {:induction false} AtMostOnceBetweenResets(sent: set<string>, ticks: seq<TickInput>, day: string, time: string, chat: ChatId)
    requires forall i :: 0 <= i < |ticks| ==> ticks[i].now != Midnight
    ensures Delivered(Run(sent, ticks).deliveries, day, time, chat) <= if Key(time, day, chat) in sent then 0 else 1
    decreases |ticks|
  {
    if |ticks| > 0 {
      var t := ticks[0];
      var r := Tick(sent, t.day, t.now, t.schedule, t.subscribers);
      var rest := Run(r.sent, ticks[1..]);
      DeliveredConcat(Stamp(t.day, t.now, r.messages), rest.deliveries, day, time, chat);
      TickAtMostOnce(sent, t, day, time, chat);
      AtMostOnceBetweenResets(r.sent, ticks[1..], day, time, chat);
    }
  }

  /**
    Exactly once between resets: over ticks none of which falls at `00:00`,
    each at an `HH:MM` time of a weekday, a chat subscribed at a tick with an
    entry due, whose key was not recorded when the run began, is reminded of
    that day and minute exactly once.
   */
  lemma {:induction false} RunDelivers(sent: set<string>, ticks: seq<TickInput>, i: nat, c: ChatId)
    requires forall j :: 0 <= j < |ticks| ==>
      ticks[j].now != Midnight && TimeShape(ticks[j].now) && ticks[j].day in WeekDays
    requires i < |ticks| && c in ticks[i].subscribers
    requires |Due(ticks[i].schedule, ticks[i].day, ticks[i].now)| > 0
    requires Key(ticks[i].now, ticks[i].day, c) !in sent
    ensures Delivered(Run(sent, ticks).deliveries, ticks[i].day, ticks[i].now, c) == 1
    decreases i
  {
    var t, day, time := ticks[0], ticks[i].day, ticks[i].now;
    var r := Tick(sent, t.day, t.now, t.schedule, t.subscribers);
    var rest := Run(r.sent, ticks[1..]);
    assert Run(sent, ticks).deliveries == Stamp(t.day, t.now, r.messages) + rest.deliveries;
    DeliveredConcat(Stamp(t.day, t.now, r.messages), rest.deliveries, day, time, c);
    TickStepFor(sent, t, day, time, c);
    var tail := ticks[1..];
    if t.day == day && t.now == time && c in t.subscribers && |Due(t.schedule, t.day, t.now)| > 0 {
      AtMostOnceBetweenResets(r.sent, tail, day, time, c);
    } else {
      assert tail[i - 1] == ticks[i];
      assert Key(time, day, c) !in r.sent;
      assert forall j :: 0 <= j < |tail| ==>
        tail[j].now != Midnight && TimeShape(tail[j].now) && tail[j].day in WeekDays by {
        forall j | 0 <= j < |tail| ensures tail[j] == ticks[j + 1] { }
      }
      RunDelivers(r.sent, tail, i - 1, c);
      assert Delivered(rest.deliveries, day, time, c) == 1;
    }
  }

  /**
    One step of `RunDelivers`: a tick reminds the chat of its (time, day), and
    records that key, exactly when the tick is at that time and day, the chat
    subscribes and an entry is due.
   */
  lemma TickStepFor(sent: set<string>, t: TickInput, day: string, time: string, c: ChatId)
    requires t.now != Midnight && TimeShape(t.now) && t.day in WeekDays
    requires TimeShape(time) && day in WeekDays && Key(time, day, c) !in sent
    ensures var r := Tick(sent, t.day, t.now, t.schedule, t.subscribers);
      var hit := t.day == day && t.now == time && c in t.subscribers && |Due(t.schedule, t.day, t.now)| > 0;
      && Delivered(Stamp(t.day, t.now, r.messages), day, time, c) == (if hit then 1 else 0)
      && (Key(time, day, c) in r.sent <==> hit)
  {
    var r := Tick(sent, t.day, t.now, t.schedule, t.subscribers);
    DeliveredStamp(t.day, t.now, r.messages, day, time, c);
    TickDelivery(sent, t.day, t.now, t.schedule, t.subscribers, c);
    TickSentSet(sent, t.day, t.now, t.schedule, t.subscribers);
    forall c' | c' in t.subscribers
      ensures Key(t.now, t.day, c') == Key(time, day, c) ==> t.now == time && t.day == day && c' == c
    {
      if Key(t.now, t.day, c') == Key(time, day, c) {
        TickKeyInjective(t.now, t.day, c', time, day, c);
      }
    }
  }

  /** One step of a run: a tick away from `00:00` reminds a chat at most once and records the key it used. */
  lemma TickAtMostOnce(sent: set<string>, t: TickInput, day: string, time: string, chat: ChatId)
    requires t.now != Midnight
    ensures var r := Tick(sent, t.day, t.now, t.schedule, t.subscribers);
      var n := Delivered(Stamp(t.day, t.now, r.messages), day, time, chat);
      && sent <= r.sent
      && n <= (if Key(time, day, chat) in sent then 0 else 1)
      && (n > 0 ==> Key(time, day, chat) in r.sent)
  {
    var r := Tick(sent, t.day, t.now, t.schedule, t.subscribers);
    DeliveredStamp(t.day, t.now, r.messages, day, time, chat);
    TickDelivery(sent, t.day, t.now, t.schedule, t.subscribers, chat);
    TickSentSet(sent, t.day, t.now, t.schedule, t.subscribers);
  }
}

=== FILE: schedules.dfy ===
/**
  The weekly schedule: a JSON object from day name to a list of
  `{time, task}` entries, and the stable by-time sort `/add` applies to a day.
 */
module Schedules {
  import opened Strings

  datatype Entry = Entry(time: string, task: string)

  /** What a day name maps to in the file: a list of entries, or JSON `null`. */
  datatype DayList = Null | Entries(items: seq<Entry>)

  type Schedule = map<string, DayList>

  const WeekDays: seq<string> :=
    ["monday", "tuesday", "wednesday", "thursday", "friday", "saturday", "sunday"]

  /** What a missing schedule file is replaced by: seven empty day buckets. */
  function InitialSchedule(): (r: Schedule)
    ensures forall d :: d in r <==> d in WeekDays
    ensures forall d :: d in r ==> r[d] == Entries([])
  {
    map d | d in WeekDays :: Entries([])
  }

  /** No weekday name holds a minus sign. */
  lemma WeekDaysHaveNoDash(d: string)
    requires d in WeekDays
    ensures '-' !in d
  {
  }

  /** `schedule[day] || []`: a missing or `null` day has no tasks. */
  function TasksOf(schedule: Schedule, day: string): (r: seq<Entry>)
    ensures day !in schedule ==> r == []
    ensures day in schedule && schedule[day].Null? ==> r == []
  {
    if day in schedule && schedule[day].Entries? then schedule[day].items else []
  }

  /** Entries in non-decreasing order of their time text. */
  ghost predicate Sorted(s: seq<Entry>) {
    forall i, j :: 0 <= i < j < |s| ==> LessEq(s[i].time, s[j].time)
  }

  /** The entries of `s` whose time is exactly `t`, in list order. */
  ghost function OfTime(s: seq<Entry>, t: string): seq<Entry>
    decreases |s|
  {
    if |s| == 0 then [] else (if s[0].time == t then [s[0]] else []) + OfTime(s[1..], t)
  }

  lemma {:induction false} OfTimeConcat(a: seq<Entry>, b: seq<Entry>, t: string)
    ensures OfTime(a + b, t) == OfTime(a, t) + OfTime(b, t)
    decreases |a|
  {
    if |a| > 0 {
      assert (a + b)[1..] == a[1..] + b;
      OfTimeConcat(a[1..], b, t);
    } else {
      assert a + b == b;
    }
  }

  lemma {:induction false} OfTimeNone(s: seq<Entry>, t: string)
    requires forall i :: 0 <= i < |s| ==> s[i].time != t
    ensures OfTime(s, t) == []
    decreases |s|
  {
    if |s| > 0 {
      OfTimeNone(s[1..], t);
    }
  }

  /** Where a stable sort puts an entry with time `t` after `r`: past every entry not later than `t`. */
  function InsertionPoint(r: seq<Entry>, t: string): (k: nat)
    ensures k <= |r|
    ensures forall i :: 0 <= i < k ==> LessEq(r[i].time, t)
    ensures k < |r| ==> !LessEq(r[k].time, t)
    decreases |r|
  {
    if |r| == 0 || !LessEq(r[0].time, t) then 0 else 1 + InsertionPoint(r[1..], t)
  }

  /** The insertion point is the one position with no later entry before it and a later entry (or the end) at it. */
  lemma InsertionPointIs(r: seq<Entry>, t: string, k: nat)
    requires k <= |r|
    requires forall i :: 0 <= i < k ==> LessEq(r[i].time, t)
    requires k < |r| ==> !LessEq(r[k].time, t)
    ensures InsertionPoint(r, t) == k
    decreases |r|
  {
  }

  /** One step of a stable insertion sort: `e` goes before the first strictly later entry. */
  function Insert(r: seq<Entry>, e: Entry): (out: seq<Entry>)
    ensures var k := InsertionPoint(r, e.time); out == r[..k] + [e] + r[k..]
    decreases |r|
  {
    if |r| == 0 || !LessEq(r[0].time, e.time) then [e] + r else [r[0]] + Insert(r[1..], e)
  }

  /** In a sorted list every entry from the insertion point on is strictly later than `t`. */
  lemma SortedPastInsertionPoint(r: seq<Entry>, t: string)
    requires Sorted(r)
    ensures forall i :: InsertionPoint(r, t) <= i < |r| ==> !LessEq(r[i].time, t)
  {
    var k := InsertionPoint(r, t);
    forall i | k <= i < |r|
      ensures !LessEq(r[i].time, t)
    {
      if LessEq(r[i].time, t) {
        if k < i {
          LessEqTransitive(r[k].time, r[i].time, t);
        }
        assert false;
      }
    }
  }

  lemma {:induction false} InsertKeepsSorted(r: seq<Entry>, e: Entry)
    requires Sorted(r)
    ensures Sorted(Insert(r, e))
    decreases |r|
  {
    if |r| > 0 {
      var out := Insert(r, e);
      if !LessEq(r[0].time, e.time) {
        LessEqTotal(e.time, r[0].time);
        forall j | 1 <= j < |out|
          ensures LessEq(e.time, out[j].time)
        {
          assert out[j] == r[j - 1];
          if j > 1 {
            LessEqTransitive(e.time, r[0].time, r[j - 1].time);
          }
        }
      } else {
        var tail := Insert(r[1..], e);
        InsertKeepsSorted(r[1..], e);
        InsertPermutes(r[1..], e);
        assert out == [r[0]] + tail;
        forall j | 0 <= j < |tail|
          ensures LessEq(r[0].time, tail[j].time)
        {
          assert tail[j] in multiset(r[1..]) + multiset{e};
          if tail[j] != e {
            assert tail[j] in r[1..];
          }
        }
      }
    }
  }

  lemma InsertPermutes(r: seq<Entry>, e: Entry)
    ensures multiset(Insert(r, e)) == multiset(r) + multiset{e}
  {
    var k := InsertionPoint(r, e.time);
    assert r == r[..k] + r[k..];
  }

  /** Inserting into a sorted list keeps the relative order of entries sharing a time, `e` last. */
  lemma InsertStable(r: seq<Entry>, e: Entry, t: string)
    requires Sorted(r)
    ensures OfTime(Insert(r, e), t) == OfTime(r, t) + OfTime([e], t)
  {
    var k := InsertionPoint(r, e.time);
    SplitOfTime(r, k, e, t);
    OfTimeSingle(e, t);
    if e.time == t {
      LaterHaveOtherTime(r, t);
    }
    Regroup(OfTime(r[..k], t), OfTime([e], t), OfTime(r[k..], t));
  }

  lemma OfTimeSingle(e: Entry, t: string)
    ensures OfTime([e], t) == if e.time == t then [e] else []
  {
  }

  /** A middle part may move to the end when it or the last part is empty. */
  lemma Regroup<T>(front: seq<T>, middle: seq<T>, back: seq<T>)
    requires middle == [] || back == []
    ensures front + middle + back == front + back + middle
  {
  }

  /** The entries of time `t` in a splice are those of the front, of `e`, and of the back. */
  lemma SplitOfTime(r: seq<Entry>, k: nat, e: Entry, t: string)
    requires k <= |r| && k == InsertionPoint(r, e.time)
    ensures OfTime(Insert(r, e), t) == OfTime(r[..k], t) + OfTime([e], t) + OfTime(r[k..], t)
    ensures OfTime(r, t) == OfTime(r[..k], t) + OfTime(r[k..], t)
  {
    assert r == r[..k] + r[k..];
    OfTimeConcat(r[..k] + [e], r[k..], t);
    OfTimeConcat(r[..k], [e], t);
    OfTimeConcat(r[..k], r[k..], t);
  }

  /** In a sorted list nothing from the insertion point of `t` on has time `t`. */
  lemma LaterHaveOtherTime(r: seq<Entry>, t: string)
    requires Sorted(r)
    ensures OfTime(r[InsertionPoint(r, t)..], t) == []
  {
    var k := InsertionPoint(r, t);
    SortedPastInsertionPoint(r, t);
    LessEqReflexive(t);
    assert forall i :: 0 <= i < |r[k..]| ==> r[k..][i] == r[k + i];
    OfTimeNone(r[k..], t);
  }

  /** An entry not earlier than everything in a sorted list is appended at its end. */
  lemma InsertAtEnd(r: seq<Entry>, e: Entry)
    requires forall i :: 0 <= i < |r| ==> LessEq(r[i].time, e.time)
    ensures Insert(r, e) == r + [e]
  {
  }

  /**
    `Array.prototype.sort` with the comparator `a.time.localeCompare(b.time)`:
    a stable sort by time. Entries whose times compare equal keep their order.
   */
  function SortByTime(s: seq<Entry>): (r: seq<Entry>)
    ensures Sorted(r)
    ensures multiset(r) == multiset(s)
    ensures forall t :: OfTime(r, t) == OfTime(s, t)
    decreases |s|
  {
    if |s| == 0 then []
    else
      var sorted := SortByTime(s[..|s| - 1]);
      SortStep(s, sorted);
      Insert(sorted, s[|s| - 1])
  }

  /** Inserting the last entry into the sorted front keeps all three promises of `SortByTime`. */
  lemma SortStep(s: seq<Entry>, sorted: seq<Entry>)
    requires |s| > 0
    requires Sorted(sorted)
    requires multiset(sorted) == multiset(s[..|s| - 1])
    requires forall t :: OfTime(sorted, t) == OfTime(s[..|s| - 1], t)
    ensures Sorted(Insert(sorted, s[|s| - 1]))
    ensures multiset(Insert(sorted, s[|s| - 1])) == multiset(s)
    ensures forall t :: OfTime(Insert(sorted, s[|s| - 1]), t) == OfTime(s, t)
  {
    var front, last := s[..|s| - 1], s[|s| - 1];
    assert s == front + [last];
    InsertKeepsSorted(sorted, last);
    InsertPermutes(sorted, last);
    forall t
      ensures OfTime(Insert(sorted, last), t) == OfTime(s, t)
    {
      InsertStable(sorted, last, t);
      OfTimeConcat(front, [last], t);
    }
  }

  /** Sorting a list that is already sorted leaves it as it is. */
  lemma {:induction false} SortSortedIsIdentity(s: seq<Entry>)
    requires Sorted(s)
    ensures SortByTime(s) == s
    decreases |s|
  {
    if |s| > 0 {
      var front := s[..|s| - 1];
      assert Sorted(front);
      SortSortedIsIdentity(front);
      InsertAtEnd(front, s[|s| - 1]);
      assert front + [s[|s| - 1]] == s;
    }
  }
}

=== FILE: strings.dfy ===
/**
  The string facts the bot relies on: the ASCII lower-casing applied to a
  `\w+` day word, the decimal text JavaScript gives an integer chat id inside
  a template literal, and JavaScript's ordering of strings.
 */
module Strings {

  /** The capital letters; the only characters of a `\w` word that `toLowerCase` changes. */
  predicate IsUpper(c: char) {
    'A' <= c <= 'Z'
  }

  function LowerChar(c: char): char {
    if IsUpper(c) then (c as int + 32) as char else c
  }

  /** `String.prototype.toLowerCase` on a word made of ASCII letters, digits and `_`. */
  function Lower(s: string): (r: string)
    ensures |r| == |s|
    ensures forall i :: 0 <= i < |r| ==> !IsUpper(r[i])
    ensures forall i :: 0 <= i < |s| && !IsUpper(s[i]) ==> r[i] == s[i]
    ensures forall i :: 0 <= i < |s| && IsUpper(s[i]) ==> r[i] == (s[i] as int + 32) as char
  {
    seq(|s|, i requires 0 <= i < |s| => LowerChar(s[i]))
  }

  /** Lower-casing a lower-cased word changes nothing. */
  lemma LowerIdempotent(s: string)
    ensures Lower(Lower(s)) == Lower(s)
  {
  }

  // ---------------------------------------------------------------------------
  // Decimal text of an integer, as `${chatId}` renders it
  // ---------------------------------------------------------------------------

  predicate IsDigit(c: char) {
    '0' <= c <= '9'
  }

  function DigitChar(d: nat): char
    requires d < 10
  {
    ('0' as int + d) as char
  }

  function DigitValue(c: char): int {
    c as int - '0' as int
  }

  /** The digits of `n`, most significant first, without leading zeros. */
  function Digits(n: nat): (r: string)
    ensures |r| > 0
    ensures forall i :: 0 <= i < |r| ==> IsDigit(r[i])
    decreases n
  {
    if n < 10 then [DigitChar(n)] else Digits(n / 10) + [DigitChar(n % 10)]
  }

  /** The text of an integer: a minus sign for negatives, then its digits. */
  function Decimal(i: int): (r: string)
    ensures |r| > 0
    ensures r[0] == '-' <==> i < 0
    ensures forall k :: 0 < k < |r| ==> IsDigit(r[k])
  {
    if i < 0 then "-" + Digits(-i) else Digits(i)
  }

  function ParseDigits(s: string): int
    decreases |s|
  {
    if |s| == 0 then 0 else 10 * ParseDigits(s[..|s| - 1]) + DigitValue(s[|s| - 1])
  }

  /** Reads back what `Decimal` writes. */
  function ParseDecimal(s: string): int {
    if |s| > 0 && s[0] == '-' then -ParseDigits(s[1..]) else ParseDigits(s)
  }

  lemma {:induction false} DigitsRoundTrip(n: nat)
    ensures ParseDigits(Digits(n)) == n
    decreases n
  {
    if n >= 10 {
      DigitsRoundTrip(n / 10);
      var s := Digits(n);
      assert s[..|s| - 1] == Digits(n / 10);
    }
  }

  lemma DecimalRoundTrip(i: int)
    ensures ParseDecimal(Decimal(i)) == i
  {
    if i < 0 {
      DigitsRoundTrip(-i);
      assert Decimal(i)[1..] == Digits(-i);
    } else {
      DigitsRoundTrip(i);
    }
  }

  /** Two chat ids share a text only if they are the same id. */
  lemma DecimalInjective(a: int, b: int)
    ensures Decimal(a) == Decimal(b) ==> a == b
  {
    DecimalRoundTrip(a);
    DecimalRoundTrip(b);
  }

  // ---------------------------------------------------------------------------
  // JavaScript's string order: lexicographic by character, a proper prefix first
  // ---------------------------------------------------------------------------

  /**
    The textbook definition of lexicographic order: `a` is a prefix of `b`, or
    at the first position where they differ `a` has the smaller character.
   */
  ghost predicate Lexicographic(a: string, b: string) {
    (|a| <= |b| && a == b[..|a|])
    || exists k :: 0 <= k < |a| && k < |b| && a[..k] == b[..k] && a[k] < b[k]
  }

  /** Two words that differ in their first character are ordered by it. */
  lemma LexicographicHead(a: string, b: string)
    requires |a| > 0 && |b| > 0 && a[0] != b[0]
    ensures Lexicographic(a, b) <==> a[0] < b[0]
  {
    if a[0] < b[0] {
      assert a[..0] == b[..0];
    } else {
      if |a| <= |b| {
        assert b[..|a|][0] == b[0];
      }
      forall k | 0 < k <= |a| && k <= |b|
        ensures a[..k] != b[..k]
      {
        assert a[..k][0] == a[0] && b[..k][0] == b[0];
      }
    }
  }

  /** Being a prefix survives dropping a shared first character, both ways. */
  lemma PrefixTail(a: string, b: string)
    requires |a| > 0 && |b| > 0 && a[0] == b[0]
    ensures (|a| <= |b| && a == b[..|a|]) <==> (|a| - 1 <= |b| - 1 && a[1..] == b[1..][..|a| - 1])
  {
    if |a| <= |b| {
      assert b[..|a|] == [b[0]] + b[1..][..|a| - 1];
      assert a == [a[0]] + a[1..];
    }
  }

  /** A first difference after a shared first character is a first difference of the tails. */
  lemma DifferenceTail(a: string, b: string, k: nat)
    requires |a| > 0 && |b| > 0 && a[0] == b[0]
    requires 0 < k < |a| && k < |b|
    ensures (a[..k] == b[..k] && a[k] < b[k]) <==> (a[1..][..k - 1] == b[1..][..k - 1] && a[1..][k - 1] < b[1..][k - 1])
  {
    assert a[..k] == [a[0]] + a[1..][..k - 1];
    assert b[..k] == [b[0]] + b[1..][..k - 1];
  }

  /** A shared first character is skipped. */
  lemma LexicographicTail(a: string, b: string)
    requires |a| > 0 && |b| > 0 && a[0] == b[0]
    ensures Lexicographic(a, b) <==> Lexicographic(a[1..], b[1..])
  {
    var a', b' := a[1..], b[1..];
    PrefixTail(a, b);
    if k' :| 0 <= k' < |a'| && k' < |b'| && a'[..k'] == b'[..k'] && a'[k'] < b'[k'] {
      DifferenceTail(a, b, k' + 1);
    }
    if k :| 0 <= k < |a| && k < |b| && a[..k] == b[..k] && a[k] < b[k] {
      assert k > 0;
      DifferenceTail(a, b, k);
    }
  }

  lemma LexicographicStep(a: string, b: string)
    requires |a| > 0 && |b| > 0
    ensures Lexicographic(a, b) <==> a[0] < b[0] || (a[0] == b[0] && Lexicographic(a[1..], b[1..]))
  {
    if a[0] == b[0] {
      LexicographicTail(a, b);
    } else {
      LexicographicHead(a, b);
    }
  }

  /** JavaScript's `<=` on strings, character by character, a proper prefix first. */
  predicate LessEq(a: string, b: string)
    decreases |a|
  {
    |a| == 0 || (|b| > 0 && (a[0] < b[0] || (a[0] == b[0] && LessEq(a[1..], b[1..]))))
  }

  lemma LessEqStep(a: string, b: string)
    requires |a| > 0 && |b| > 0
    ensures LessEq(a, b) <==> a[0] < b[0] || (a[0] == b[0] && LessEq(a[1..], b[1..]))
  {
  }

  /** The character-by-character order is lexicographic order. */
  lemma {:induction false} LessEqIsLexicographic(a: string, b: string)
    ensures LessEq(a, b) <==> Lexicographic(a, b)
    decreases |a|
  {
    if |a| > 0 && |b| > 0 {
      LexicographicStep(a, b);
      LessEqIsLexicographic(a[1..], b[1..]);
    }
  }

  lemma {:induction false} LessEqReflexive(a: string)
    ensures LessEq(a, a)
    decreases |a|
  {
    if |a| > 0 {
      LessEqReflexive(a[1..]);
    }
  }

  lemma {:induction false} LessEqTotal(a: string, b: string)
    ensures LessEq(a, b) || LessEq(b, a)
    decreases |a|
  {
    if |a| > 0 && |b| > 0 && a[0] == b[0] {
      LessEqTotal(a[1..], b[1..]);
    }
  }

  lemma {:induction false} LessEqTransitive(a: string, b: string, c: string)
    requires LessEq(a, b) && LessEq(b, c)
    ensures LessEq(a, c)
    decreases |a|
  {
    if |a| > 0 && a[0] == b[0] && b[0] == c[0] {
      LessEqTransitive(a[1..], b[1..], c[1..]);
    }
  }
}

=== FILE: wrappers.dfy ===
/** Option and Result types used by the commands. */
module Wrappers {

  /** A value that may be absent, as `Array.prototype.find` returns `undefined`. */
  datatype Option<+T> = None | Some(value: T)

  /** The outcome of a command: the new state, or the rejection the user is told about. */
  datatype Result<+R, +E> = Success(value: R) | Failure(error: E)
}
